=== FILE: README.md ===
# Asset report layout — a Dafny model

This project models the PDF report renderer of the asset-inventory backend.
The backend is a CRUD API over CPR → BPM → PCS → Patrimônio → Arquivo records.
For one asset (a *patrimônio*), the renderer draws:

- a header with an optional logo, the centred titles and an optional QR code;
- twelve label/value rows, where a long value pushes the following rows down;
- an image gallery, two images per A4 page.

The model also covers the string rules for object-storage keys and public URLs.

Everything is pure functions over immutable datatypes. Coordinates are `real`, so the arithmetic is exact.
The outside world is passed in as inputs (`Report.Env`):

- the text engine's measurements: where the titles end, and how tall a wrapped value is;
- the image fetches and the QR encoding, each as an `Option` (`None` when the call threw).

Modules:

- `Wrappers`: `Option` and `Bytes`.
- `JsValues`: the JavaScript value rules the renderer relies on: truthiness, `||`, `??` and `String(x)`.
- `Geometry`: the A4 page with margins 40/50/50/40 and its content box.
- `FieldBlock`: `drawLabelValue`, covering the value column, the `"-"` placeholder, the cursor advance, and chains of rows.
- `Gallery`: `renderImagesTwoPerPage`, covering pagination into pairs, the title on the first page, slot geometry and blank slots for failed fetches.
- `Header`: the header-bottom steps, the separator and the content floor.
- `Attachments`: the image-attachment filter.
- `StorageKeys`: upload and report keys, public URLs, and key recovery with `split(".amazonaws.com/")[1]`.
- `Report`: the composer (`makePatrimonioPDF`) and the report endpoint's key and URL.

Three behaviours of the code that the model keeps as they are:

- The report always draws the same twelve rows, in a fixed order, including "PCS:" twice.
- One footer is drawn, on the last page only.
- For the two asset tags and the notes, `x || String(x)` shows a null value as the word `"null"`, not `"-"`.

## Model

| member | source | states |
|---|---|---|
| `Geometry.A4Content` | handler.js:146 | The report page has a valid content box 495.28 wide and 761.89 tall (A4 with margins 40/50/50/40). |
| `JsValues.ToJsString` | handler.js:212 | `String(v)`: a string is itself, and `null`, `undefined` and booleans give their words. A safe integer (at most 2^53 − 1 in magnitude, where JavaScript writes plain digits) gives canonical decimal digits whose value is the number: `"0"` for zero, no leading zero otherwise, and a leading `-` when negative. |
| `FieldBlock.RowColumns` | handler.js:60-67 | The label starts at `x` and the value column at `x + labelWidth + 6`. The column reaches the right margin exactly when that leaves at least 10; otherwise it is 10 wide. It is never narrower than 10. |
| `FieldBlock.DisplayText` | handler.js:75 | A null or undefined value is shown as `"-"`. A string is shown as itself, an empty string included. Any other value is shown as `String(value)`. |
| `FieldBlock.NextCursor` | handler.js:79-82 | The returned cursor is at least `y + lineHeight + 4` and at least `renderedBottom + 4`, and it is one of the two. |
| `FieldBlock.NextCursorCases` | handler.js:79-82 | When the value wraps lower than one line height, the cursor is `renderedBottom + 4`, strictly more than the minimum. Otherwise it is exactly `y + lineHeight + 4`. |
| `FieldBlock.CursorTrace` | handler.js:212-223 | The twelve chained `drawLabelValue` calls, as a list of cursors: one more cursor than rows, starting at the first row's y. `FieldBlock.CursorTraceStep` states that each cursor follows from the previous one. |
| `FieldBlock.CursorTraceStep` | handler.js:212-223 | In a chain of rows, each cursor is `drawLabelValue`'s result for the previous row's cursor and rendered value. |
| `FieldBlock.CursorTraceAdvances` | handler.js:212-223 | Each row advances the cursor by at least `lineHeight + 4`, and by at least the value's rendered extent + 4. Wrapping strictly adds height; a short value costs exactly one line. |
| `FieldBlock.CursorTraceLowerBound` | handler.js:212-223 | After k rows the cursor is at least `k * (lineHeight + 4)` below the start. |
| `FieldBlock.CursorTraceMonotone` | handler.js:212-223 | With a non-negative line height, the row cursors never decrease. |
| `Gallery.Slots` | handler.js:128-135 | Slot 1 starts at the cursor. The two slots have equal height, slot 2 starts 18 below slot 1's bottom and ends exactly on the bottom margin. Given room for the gap, both slots are non-inverted. |
| `Gallery.PlaceImage` | handler.js:109-116 | An image is drawn iff its fetch succeeded, with that URL and those bytes. It is fitted at the left margin, across the full content width, from 8 below the slot top to 8 above the slot bottom. |
| `Gallery.SlotCursor` | handler.js:119-126 | The slots start 10 below the section title on the first gallery page, and at the top margin on later ones. |
| `Gallery.MakePage` | handler.js:119-140 | One page per pair: titled iff first, its cursor and slots as `Gallery.SlotCursor` and `Gallery.Slots` give them. The first image is drawn iff fetched. The second slot is drawn only when a second image exists and was fetched, each showing its own URL. |
| `Gallery.PagesFrom` | handler.js:118-141 | Pairing the images gives `ceil(n/2)` pages. |
| `Gallery.Layout` | handler.js:92-142 | The gallery adds `ceil(n/2)` pages, and none exactly when there are no images. |
| `Gallery.PagesFromPlacement` | handler.js:137-140 | Image i goes to page i/2: into slot 1 when i is even and slot 2 when odd. |
| `Gallery.PagesFromTitles` | handler.js:118-126 | Only the first gallery page has the section title, and its slots start 10 below the title. Later pages start their slots at the top margin. |
| `Gallery.PagesFromOddTail` | handler.js:138-140 | With an odd count, the last page's second slot stays empty. |
| `Gallery.LayoutShape` | handler.js:118-135 | For every gallery page: the title is on page 0 only; the cursor is title bottom + 10 on page 0 and the top margin elsewhere; the slots start at the cursor, have equal heights, are 18 apart, and end on the bottom margin. |
| `Gallery.SlotsInside` | handler.js:128-135 | When the title fits and leaves room for the gap, the slots of every page lie inside the content box, in order, without overlapping. |
| `Gallery.LayoutPlacement` | handler.js:137-140 | Image i appears on page i/2 in slot 1 + i%2, exactly when its fetch succeeded, with its own URL and bytes. With an odd count, the last page's second slot is empty. |
| `Gallery.FailureIsolated` | handler.js:137-140 | Changing one image's fetch outcome changes only its own slot. The page count, every page's title, cursor and slots, and every other image stay the same. |
| `Header.AfterLogo` | handler.js:160-171 | The header bottom never moves up at the logo step. A drawn logo pushes it to at least its counted extent, top + 63 (70 × 0.9). Without a logo it is unchanged. |
| `Header.AfterTitles` | handler.js:173-179 | The header bottom never moves up at the titles step and reaches at least the titles' rendered bottom. |
| `Header.AfterQr` | handler.js:181-197 | The header bottom never moves up at the QR step. A drawn QR block pushes it to at least top + 120. Without a QR block it is unchanged. |
| `Header.HeaderTrace` | handler.js:156-193 | `headerBottomY` starts at the header top and never decreases across the logo, titles and QR steps. |
| `Header.SeparatorY` | handler.js:200 | The separator is at least 8 below the header bottom and at least 60 below the header top, and it is one of the two. |
| `Header.ContentStart` | handler.js:205-207 | Content starts at least 20 below the separator and at least 160 below the header top, and it is one of the two. |
| `Header.Layout` | handler.js:156-209 | Logo and QR are drawn exactly when their attempts succeeded, each showing the fetched or encoded image: the logo at the top-left corner in a 70 × 63 box (its counted height), the QR as a 100 × 100 square flush with the right margin. The bottom bounds hold, the separator is exactly `SeparatorY` of the bottom, and the content start is exactly `ContentStart` of the separator. |
| `Header.BottomIsLowestExtent` | handler.js:157-193 | The header bottom is exactly one of the counted extents: the header top, the titles, the logo's counted 63 (if drawn) or the QR block (if drawn). |
| `Header.FailureNeverLowersContent` | handler.js:160-207 | A failed logo or QR attempt never moves the content start down compared with a successful one. |
| `Header.FullHeaderOnA4` | handler.js:156-207 | On the A4 report page, with logo, QR and titles ending above 160, the header ends at 160, the separator is at 168 and content starts at 200. |
| `Attachments.ImagePositions` | handler.js:228 | The positions returned are strictly increasing and are exactly those of the attachments whose type (null counting as `""`) starts with `"image"`. |
| `Attachments.ImageUrls` | handler.js:227-229 | The filter-and-map keeps at most as many URLs as there are attachments. `Attachments.ImageUrlsSelects` states that these are the image attachments' URLs, in order. |
| `Attachments.ImageUrlsSelects` | handler.js:227-229 | The filtered list's k-th URL is the URL of the k-th image attachment, and its length is the number of image attachments. So it keeps exactly the images, in their original order. |
| `Attachments.ImageUrlsAppend` | handler.js:227-229 | Filtering distributes over concatenation, so relative order is preserved. |
| `Attachments.ImageUrlsEmpty` | handler.js:226-233 | The image list is empty, and the gallery is skipped, iff no attachment is an image. |
| `StorageKeys.UploadKey` | handler.js:497 | The key has the form `public/{uuid}-{name}`: the prefix, the uuid at its place, a `-` right after it, and the file name as its tail. |
| `StorageKeys.ReportKey` | handler.js:628 | The key has the form `reports/{id}.pdf`: the id sits between the prefix and `.pdf`. |
| `StorageKeys.ReportKeyInjective` | handler.js:628 | Distinct asset ids get distinct report keys, so regeneration overwrites only the asset's own report. |
| `StorageKeys.PublicUrl` | handler.js:507 | The URL is `https://{bucket}.s3` followed by `.amazonaws.com/` and then exactly the key. |
| `StorageKeys.IndexOf` | handler.js:540 | Finds the first occurrence of the separator at or after `from`, or reports that there is none. |
| `StorageKeys.SecondPiece` | handler.js:540 | `split(sep)[1]` is undefined exactly when the separator does not occur. Otherwise the piece starts right after the first occurrence, contains no occurrence, and ends where the next occurrence starts or at the end of the string. |
| `StorageKeys.DeletionKey` | handler.js:575 | A URL without the separator yields the key `"undefined"`. Otherwise the result is exactly the second piece of the split, recovered when it has no `%` and kept apart as still needing decoding when it has one. A recovered key has no separator. |
| `StorageKeys.KeyRoundTrip` | handler.js:540 | If the bucket has no `/` and the key has neither the separator nor `%`, the deletion path recovers exactly the key the public URL was built from. |
| `StorageKeys.UploadKeyRoundTrip` | handler.js:497-540 | An uploaded file's key is recovered from its public URL whenever the uuid has the v4 shape and the file name has neither the separator nor `%`. |
| `StorageKeys.ReportKeyRoundTrip` | handler.js:628-629 | A report key is recovered from its public URL whenever the id has no `.` and no `%`. |
| `StorageKeys.DefaultBucketSlashFree` | handler.js:20 | The default bucket name has no `/`, so the round trips apply to it. |
| `Report.YesNo` | handler.js:220-222 | A flag is shown as "Sim" exactly when it is truthy, and as "Não" otherwise. |
| `Report.NameOr` | handler.js:212-217 | `name || String(fallback)`: a truthy name is kept, and otherwise the fallback's string form. |
| `Report.RowTexts` | handler.js:212-223 | One text per label: each is `(v ?? "-").toString()` of that row's value. `Report.RowTextMeaning` spells out what each row shows. |
| `Report.Fields` | handler.js:212-223 | Twelve rows, with captions in the source's order ("PCS:" appears twice). |
| `Report.RowTextMeaning` | handler.js:212-223 | Row texts: CPR/BPM/PCS show the unit's name, or `String(id)` when the name is falsy, and both PCS rows agree. PCS shows the unit's name when it is a non-empty string. Location and address show `"-"` when null, and a string address shows as itself. The asset tags and notes always show `String(x)`: `"null"` when null, and themselves when truthy. The three flags show "Sim" when truthy and "Não" otherwise. |
| `Report.LayoutRows` | handler.js:209-223 | Twelve rows with the source's captions and the given texts, the first drawn at the content start. |
| `Report.RowsChained` | handler.js:212-223 | Each row's successor starts at `drawLabelValue`'s result for it, at least 22 lower, and its value column is at least 10 wide. The block ends at least 12 × 22 below the content start. |
| `Report.LogoOutcome` | handler.js:160-171 | A logo is drawn exactly when a logo URL is configured and fetching it succeeded. |
| `Report.QrOutcome` | handler.js:182-197 | A QR block is drawn exactly when the report URL is non-empty and encoding it succeeded. |
| `Report.Compose` | handler.js:144-239 | The document has the header of the logo and QR outcomes, with the logo present iff configured and fetched and the QR iff the URL is non-empty and encoded. Field rows run from the content start (at least top + 160). The gallery covers the image attachments, there are `1 + ceil(images/2)` pages, and the footer line is on the last page, 20 above the bottom margin. |
| `Report.GalleryShowsImages` | handler.js:226-233 | The k-th image attachment is drawn on gallery page k/2, in slot 1 + k%2, exactly when its fetch succeeded. |
| `Report.FailuresKeepStructure` | handler.js:160-233 | Fetch or QR failures, the logo setting and text measurements never change the page count, the captions or the row texts. |
| `Report.ThreeImagesThreePages` | handler.js:226-233 | Three image attachments give three pages: the first page, then a titled gallery page with two image slots, then an untitled one with a single slot. |
| `Report.ThreeImagesPlacement` | handler.js:100-141 | With three image attachments, the first two images go into the slots of gallery page 1 and the third into the first slot of gallery page 2. Each is drawn exactly when its own fetch succeeded. |
| `Report.GenerateReport` | handler.js:628-636 | The report is stored under `reports/{id}.pdf` at its public URL. The QR block appears exactly when encoding that URL succeeds, and then shows that encoding. The document has one row per label with this asset's texts, and `1 + ceil(images/2)` pages for its attachments. It is exactly the document `Report.Compose` draws for this asset, these attachments and the same outside world, so its logo and gallery images are the fetched ones. |

## Left out

- HTTP routing, CORS and the response helper: request plumbing with no layout logic.
- MySQL queries: the asset and its attachments are inputs (`Report.Asset`, `Attachments.Attachment`).
- S3 `send`: the model computes keys and URLs, but never stores or deletes objects.
- `fetchBuffer`, pdfkit's image decoding and `QRCode.toDataURL`: modelled only by their outcome, `Some(bytes)` or `None` when they throw.
- pdfkit's text layout: the titles' bottom, the section title's bottom and the wrapped height of each value are inputs (`Report.Env`).
- Floating point: coordinates are exact `real`s, while the source computes with IEEE doubles. The equalities the model states (slots ending exactly on the bottom margin, equal slot heights, cursor sums) therefore hold in the source only up to rounding. For example, a first gallery page whose title ends at 52.7 gives a second slot ending at 801.8899999999999 rather than 801.89.
- pdfkit's `fit` scaling and centring of an image inside its box: only the box is modelled.
- pdfkit's automatic page break when text runs past the bottom margin: the field rows are assumed to fit on the first page, so `Report.Compose` counts 1 + gallery pages.
- Separator and footer line end points, the label column text, the QR caption position, and the footer's `toLocaleString("pt-BR")` timestamp: pure drawing and locale formatting, with no effect on layout.
- The footer timestamp's position: handler.js:239 writes it at pdfkit's current text cursor, not at the footer line. With no images that is just below the last field row on page 1. With images it is wherever the last gallery page left the cursor. `Report.Footer` models only the footer line.
- `Header.Layout`: the logo's drawn height is not modelled. handler.js:166 passes only the width, so pdfkit takes the height from the image's aspect ratio, and a tall logo can reach below the counted 63 points and overlap the separator. The logo box carries the counted height.
- The promise and stream chunk collection of the PDF buffer, and output-stream write errors: asynchronous plumbing.
- `StorageKeys.DeletionKey`: `decodeURIComponent` is modelled as the identity on text without `%`. Text with `%` is returned as `NeedsDecoding` rather than percent-decoded, and a malformed escape is not modelled as an exception.
  - By the source's text, an upload named `100%.png` would make `decodeURIComponent` throw at handler.js:575. That throw is outside the inner try, so the endpoint answers 500 and the row stays.
  - A name such as `a%20b.png` would decode to a different key, leaving the stored object behind.
- `Report.Env`: `fetch` is a function of the URL. Two attachments with the same URL, or a logo URL equal to an image URL, therefore get the same outcome in the model, although the source makes a separate request for each. `Gallery.FailureIsolated` states per-image independence at the gallery level, where each attempt carries its own outcome.
- `JsValues.ToJsString`: only integers of magnitude at most 2^53 − 1 are represented, and every one prints as plain digits. Fractional numbers, larger numbers (JavaScript writes exponent form from 10^21 on) and non-string values reaching `.startsWith` are not modelled.
- `Attachments.Attachment`: a null URL is not represented. The source would pass `null` to the fetch, which throws and leaves the slot blank, just like a failed fetch.
- `Gallery.PlaceImage`: a slot too small for its 16 points of padding gives a negative fit height, as in the source. What pdfkit then draws is not modelled.

=== FILE: attachments.dfy ===
/** Which attachments the gallery shows: those whose type starts with
    "image" (a missing type counts as the empty string), in their original
    order, each reduced to its URL. */
module Attachments {
  import opened Wrappers

  /** A row of the attachment table as the report reads it: its public URL
      and its MIME type, `None` when the column is null. */
  datatype Attachment = Attachment(url: string, fileType: Option<string>)

  const ImagePrefix: string := "image"

  /** `(a.TP_ARQUIVO || "").startsWith("image")`; the empty string is the
      only falsy string, so a null type and an empty one behave alike. */
  predicate IsImage(a: Attachment) {
    ImagePrefix <= a.fileType.GetOr("")
  }

  /** URLs of the image attachments, in order. */
  function ImageUrls(atts: seq<Attachment>): (urls: seq<string>)
    ensures |urls| <= |atts|
    decreases |atts|
  {
    if |atts| == 0 then []
    else (if IsImage(atts[0]) then [atts[0].url] else []) + ImageUrls(atts[1..])
  }

  /** `idx` lists, in increasing order, exactly the positions of the image
      attachments. */
  ghost predicate SelectsImages(atts: seq<Attachment>, idx: seq<nat>) {
    && (forall k :: 0 <= k < |idx| ==> idx[k] < |atts| && IsImage(atts[idx[k]]))
    && (forall k, l :: 0 <= k < l < |idx| ==> idx[k] < idx[l])
    && (forall i :: 0 <= i < |atts| && IsImage(atts[i]) ==> i in idx)
  }

  /** Positions, from `from` on, of the image attachments, in increasing order. */
  function PositionsFrom(atts: seq<Attachment>, from: nat): (idx: seq<nat>)
    requires from <= |atts|
    ensures forall k :: 0 <= k < |idx| ==> from <= idx[k] < |atts| && IsImage(atts[idx[k]])
    ensures forall k, l :: 0 <= k < l < |idx| ==> idx[k] < idx[l]
    ensures forall i :: from <= i < |atts| && IsImage(atts[i]) ==> i in idx
    decreases |atts| - from
  {
    if from == |atts| then []
    else (if IsImage(atts[from]) then [from] else []) + PositionsFrom(atts, from + 1)
  }

  /** Positions of the image attachments, in increasing order. */
  function ImagePositions(atts: seq<Attachment>): (idx: seq<nat>)
    ensures SelectsImages(atts, idx)
  {
    PositionsFrom(atts, 0)
  }

  /** Putting one more image in front of both lists keeps the k-th URL
      that of the k-th listed position. */
  lemma ConsMatches(atts: seq<Attachment>, from: nat, rest: seq<string>, restIdx: seq<nat>)
    requires from < |atts|
    requires |rest| == |restIdx|
    requires forall k :: 0 <= k < |restIdx| ==> restIdx[k] < |atts| && rest[k] == atts[restIdx[k]].url
    ensures var urls, idx := [atts[from].url] + rest, [from] + restIdx;
            |urls| == |idx| && forall k :: 0 <= k < |idx| ==> idx[k] < |atts| && urls[k] == atts[idx[k]].url
  {
  }

  lemma {:induction false} ImageUrlsFrom(atts: seq<Attachment>, from: nat)
    requires from <= |atts|
    ensures var idx := PositionsFrom(atts, from);
            |ImageUrls(atts[from..])| == |idx|
            && forall k :: 0 <= k < |idx| ==> ImageUrls(atts[from..])[k] == atts[idx[k]].url
    decreases |atts| - from
  {
    if from < |atts| {
      ImageUrlsFrom(atts, from + 1);
      assert atts[from..][1..] == atts[from + 1..];
      var rest, restIdx := ImageUrls(atts[from + 1..]), PositionsFrom(atts, from + 1);
      if IsImage(atts[from]) {
        assert ImageUrls(atts[from..]) == [atts[from].url] + rest;
        assert PositionsFrom(atts, from) == [from] + restIdx;
        ConsMatches(atts, from, rest, restIdx);
      } else {
        assert ImageUrls(atts[from..]) == rest;
        assert PositionsFrom(atts, from) == restIdx;
      }
    }
  }

  /** The filter keeps exactly the image attachments and nothing else, in
      their original order: its k-th URL is that of the k-th image attachment. */
  lemma ImageUrlsSelects(atts: seq<Attachment>)
    ensures var idx := ImagePositions(atts);
            |ImageUrls(atts)| == |idx|
            && forall k :: 0 <= k < |idx| ==> ImageUrls(atts)[k] == atts[idx[k]].url
  {
    ImageUrlsFrom(atts, 0);
    assert atts[0..] == atts;
  }

  /** The filter distributes over concatenation, so it keeps relative order. */
  lemma {:induction false} ImageUrlsAppend(a: seq<Attachment>, b: seq<Attachment>)
    ensures ImageUrls(a + b) == ImageUrls(a) + ImageUrls(b)
    decreases |a|
  {
    if |a| == 0 {
      assert a + b == b;
    } else {
      ImageUrlsAppend(a[1..], b);
      var ab := a + b;
      assert ab[0] == a[0];
      assert ab[1..] == a[1..] + b;
      var head := if IsImage(a[0]) then [a[0].url] else [];
      assert ImageUrls(ab) == head + ImageUrls(a[1..] + b);
      assert ImageUrls(a) == head + ImageUrls(a[1..]);
    }
  }

  /** The gallery runs exactly when some attachment is an image. */
  lemma {:induction false} ImageUrlsEmpty(atts: seq<Attachment>)
    ensures ImageUrls(atts) == [] <==> forall i :: 0 <= i < |atts| ==> !IsImage(atts[i])
    decreases |atts|
  {
    if |atts| > 0 {
      ImageUrlsEmpty(atts[1..]);
      assert forall i :: 1 <= i < |atts| ==> atts[1..][i - 1] == atts[i];
    }
  }
}

=== FILE: field_block.dfy ===
/** The label/value row of the report (`drawLabelValue`): where the value
    column sits, what text it shows, and how far the row moves the cursor.
    pdfkit's text layout is not modelled; the bottom it reports for the
    wrapped value text (`doc.y` after drawing it) is an input. */
module FieldBlock {
  import opened Geometry
  import opened JsValues

  /** Defaults of `drawLabelValue`. */
  const DefaultLabelWidth: real := 140.0
  const DefaultLineHeight: real := 18.0
  /** Space between the label column and the value column. */
  const ColumnGap: real := 6.0
  /** Extra spacing added after every row. */
  const RowPadding: real := 4.0
  /** Narrowest value column the renderer ever asks for. */
  const MinValueWidth: real := 10.0
  /** Shown when the value is `null` or `undefined`. */
  const Placeholder: string := "-"

  /** Horizontal layout of one row. */
  datatype Columns = Columns(labelX: real, valueX: real, valueWidth: real)

  /** Columns of a row drawn at `x`: the label at `x`, the value after the
      label column and the gap, as wide as the space up to the right margin
      but never narrower than 10. */
  function RowColumns(page: Page, x: real, labelWidth: real): (c: Columns)
    ensures c.labelX == x
    ensures c.valueX == x + labelWidth + ColumnGap
    ensures c.valueWidth >= MinValueWidth
    ensures c.valueX + c.valueWidth >= page.Right()
    ensures page.Right() - c.valueX >= MinValueWidth ==> c.valueX + c.valueWidth == page.Right()
    ensures page.Right() - c.valueX < MinValueWidth ==> c.valueWidth == MinValueWidth
  {
    var valueX := x + labelWidth + ColumnGap;
    Columns(x, valueX, Max(MinValueWidth, page.Right() - valueX))
  }

  /** Text drawn in the value column: `(value ?? "-").toString()`. */
  function DisplayText(value: JsValue): (t: string)
    ensures Nullish(value) ==> t == Placeholder
    ensures value.Str? ==> t == value.s
    ensures !Nullish(value) ==> t == ToJsString(value)
  {
    ToJsString(Coalesce(value, Str(Placeholder)))
  }

  /** Cursor after a row drawn at `y` whose value text ended at `renderedBottom`:
      at least one line height below `y`, below the rendered value when it
      wrapped further down, plus the row padding. */
  function NextCursor(y: real, lineHeight: real, renderedBottom: real): (next: real)
    ensures next >= y + lineHeight + RowPadding
    ensures next >= renderedBottom + RowPadding
    ensures next == y + lineHeight + RowPadding || next == renderedBottom + RowPadding
  {
    Max(y + lineHeight, renderedBottom) + RowPadding
  }

  /** A value that wraps below the single line height pushes the next row
      down by exactly its rendered extent; a short one costs exactly one line. */
  lemma NextCursorCases(y: real, lineHeight: real, renderedBottom: real)
    ensures renderedBottom > y + lineHeight ==>
              NextCursor(y, lineHeight, renderedBottom) == renderedBottom + RowPadding
              && NextCursor(y, lineHeight, renderedBottom) > y + lineHeight + RowPadding
    ensures renderedBottom <= y + lineHeight ==>
              NextCursor(y, lineHeight, renderedBottom) == y + lineHeight + RowPadding
  {
  }

  /** Cursors of a block of rows drawn one after the other from `y`, each
      row's returned cursor feeding the next call. The text engine lays row
      k's value out `extents[k]` tall, so it ends at the row's cursor plus
      that extent. Element 0 is `y`, the last element is the cursor after the
      block. */
  function CursorTrace(y: real, lineHeight: real, extents: seq<real>): (trace: seq<real>)
    ensures |trace| == |extents| + 1
    ensures trace[0] == y
    decreases |extents|
  {
    if |extents| == 0 then [y]
    else [y] + CursorTrace(NextCursor(y, lineHeight, y + extents[0]), lineHeight, extents[1..])
  }

  /** Every step of the trace is the row rule applied to the previous cursor. */
  lemma {:induction false} CursorTraceStep(y: real, lineHeight: real, extents: seq<real>, k: nat)
    requires k < |extents|
    ensures var trace := CursorTrace(y, lineHeight, extents);
            trace[k + 1] == NextCursor(trace[k], lineHeight, trace[k] + extents[k])
    decreases k
  {
    if k > 0 {
      CursorTraceStep(NextCursor(y, lineHeight, y + extents[0]), lineHeight, extents[1..], k - 1);
    }
  }

  /** Each row advances the cursor by at least one line height plus padding,
      and by the value's full extent plus padding when it wrapped further;
      an extent beyond one line height is a strict extra advance. */
  lemma CursorTraceAdvances(y: real, lineHeight: real, extents: seq<real>, k: nat)
    requires k < |extents|
    ensures var trace := CursorTrace(y, lineHeight, extents);
            && trace[k + 1] >= trace[k] + lineHeight + RowPadding
            && trace[k + 1] >= trace[k] + extents[k] + RowPadding
            && (extents[k] > lineHeight ==> trace[k + 1] > trace[k] + lineHeight + RowPadding)
            && (extents[k] <= lineHeight ==> trace[k + 1] == trace[k] + lineHeight + RowPadding)
  {
    CursorTraceStep(y, lineHeight, extents, k);
  }

  /** After k rows the cursor is at least k minimum rows below the start. */
  lemma {:induction false} CursorTraceLowerBound(y: real, lineHeight: real, extents: seq<real>, k: nat)
    requires k <= |extents|
    ensures CursorTrace(y, lineHeight, extents)[k] >= y + (k as real) * (lineHeight + RowPadding)
    decreases k
  {
    if k > 0 {
      var trace := CursorTrace(y, lineHeight, extents);
      var step := lineHeight + RowPadding;
      CursorTraceLowerBound(y, lineHeight, extents, k - 1);
      CursorTraceAdvances(y, lineHeight, extents, k - 1);
      assert trace[k] >= trace[k - 1] + step;
      assert (k as real) * step == ((k - 1) as real) * step + step;
    }
  }

  /** With a non-negative line height the cursors of a block are ordered:
      a later row never starts above an earlier one. */
  lemma {:induction false} CursorTraceMonotone(y: real, lineHeight: real, extents: seq<real>, i: nat, j: nat)
    requires lineHeight >= 0.0
    requires i <= j <= |extents|
    ensures CursorTrace(y, lineHeight, extents)[i] <= CursorTrace(y, lineHeight, extents)[j]
    decreases j - i
  {
    if i < j {
      CursorTraceMonotone(y, lineHeight, extents, i, j - 1);
      CursorTraceAdvances(y, lineHeight, extents, j - 1);
    }
  }
}

=== FILE: gallery.dfy ===
/** The image gallery (`renderImagesTwoPerPage`): the image list split into
    consecutive pairs, one new page per pair, a section title on the first
    gallery page only, and two equal slots per page separated by a fixed gap
    that reach exactly down to the bottom margin. A fetch that fails leaves
    its slot blank. */
module Gallery {
  import opened Wrappers
  import opened Geometry

  /** Space between the two slots of a page. */
  const SlotGap: real := 18.0
  /** Space between the section title and the first slot. */
  const TitleGap: real := 10.0
  const SlotTopPadding: real := 8.0
  const SlotBottomPadding: real := 8.0
  const SidePadding: real := 0.0

  /** One image of the list and what fetching it gave: `None` when
      `fetchBuffer` or pdfkit's image decoding threw. */
  datatype Attempt = Attempt(url: string, fetched: Option<Bytes>)

  /** A vertical band of the page reserved for one image. */
  datatype Slot = Slot(top: real, bottom: real)
  {
    function Height(): real { bottom - top }
  }

  /** `doc.image(buffer, x, y, { fit: [fitWidth, fitHeight] })`: the image is
      scaled into this box (the scaling itself is pdfkit's). */
  datatype Placement = Placement(url: string, image: Bytes, x: real, y: real, fitWidth: real, fitHeight: real)

  /** One gallery page: whether it carries the section title, the cursor the
      slots start from, both slots, and what was drawn in each. */
  datatype GalleryPage = GalleryPage(hasTitle: bool, cursor: real, slot1: Slot, slot2: Slot,
                                     image1: Option<Placement>, image2: Option<Placement>)

  /** The two slots below `cursor`: equal heights, `SlotGap` apart, the
      second ending on the bottom of the content box. */
  function Slots(page: Page, cursor: real): (slots: (Slot, Slot))
    ensures slots.0.top == cursor
    ensures slots.0.Height() == slots.1.Height()
    ensures slots.1.top == slots.0.bottom + SlotGap
    ensures slots.1.bottom == page.Bottom()
    ensures cursor + SlotGap <= page.Bottom() ==>
              cursor <= slots.0.bottom && slots.1.top <= slots.1.bottom
  {
    var slotHeight := (page.Bottom() - cursor - SlotGap) / 2.0;
    var slot1 := Slot(cursor, cursor + slotHeight);
    (slot1, Slot(slot1.bottom + SlotGap, slot1.bottom + SlotGap + slotHeight))
  }

  /** `drawImageInSlot`: nothing is drawn when the fetch failed; otherwise the
      image is fitted into the slot's full content width and its height less
      the top and bottom padding, starting below the top padding. */
  function PlaceImage(page: Page, attempt: Attempt, slot: Slot): (p: Option<Placement>)
    ensures p.Some? <==> attempt.fetched.Some?
    ensures p.Some? ==> p.value.url == attempt.url && p.value.image == attempt.fetched.value
    ensures p.Some? ==> p.value.x == page.Left() && p.value.fitWidth == page.ContentWidth()
    ensures p.Some? ==> p.value.y == slot.top + SlotTopPadding
    ensures p.Some? ==> p.value.y + p.value.fitHeight == slot.bottom - SlotBottomPadding
  {
    match attempt.fetched
    case None => None
    case Some(image) =>
      Some(Placement(attempt.url, image, page.Left() + SidePadding, slot.top + SlotTopPadding,
                     page.ContentWidth() - 2.0 * SidePadding,
                     slot.Height() - (SlotTopPadding + SlotBottomPadding)))
  }

  /** Where the slots of a gallery page start: below the section title and
      its gap on the first gallery page, at the top margin on later ones. */
  function SlotCursor(page: Page, first: bool, titleBottom: real): (c: real)
    ensures first ==> c == titleBottom + TitleGap
    ensures !first ==> c == page.Top()
  {
    if first then titleBottom + TitleGap else page.Top()
  }

  /** The page drawn for one pair (or a final single image): titled when
      first, slots below its cursor, the first image drawn iff fetched and the
      second slot drawn only when there is a second image and it was fetched. */
  function MakePage(page: Page, first: bool, titleBottom: real, a: Attempt, b: Option<Attempt>): (p: GalleryPage)
    ensures p.hasTitle == first
    ensures p.cursor == SlotCursor(page, first, titleBottom)
    ensures (p.slot1, p.slot2) == Slots(page, p.cursor)
    ensures p.image1.Some? <==> a.fetched.Some?
    ensures p.image1.Some? ==> p.image1.value.url == a.url
    ensures p.image2.Some? <==> b.Some? && b.value.fetched.Some?
    ensures p.image2.Some? ==> p.image2.value.url == b.value.url
  {
    var cursor := SlotCursor(page, first, titleBottom);
    var slots := Slots(page, cursor);
    GalleryPage(first, cursor, slots.0, slots.1,
                PlaceImage(page, a, slots.0),
                if b.Some? then PlaceImage(page, b.value, slots.1) else None)
  }

  /** Pages for the remaining attempts, two per page; `first` says whether the
      next page is the first gallery page. `titleBottom` is where the text
      engine ended the section title (`doc.y` after drawing it). */
  function PagesFrom(page: Page, titleBottom: real, attempts: seq<Attempt>, first: bool): (pages: seq<GalleryPage>)
    ensures |pages| == (|attempts| + 1) / 2
    decreases |attempts|
  {
    if |attempts| == 0 then []
    else if |attempts| == 1 then [MakePage(page, first, titleBottom, attempts[0], None)]
    else [MakePage(page, first, titleBottom, attempts[0], Some(attempts[1]))]
         + PagesFrom(page, titleBottom, attempts[2..], false)
  }

  /** The whole gallery; no pages at all for an empty list. */
  function Layout(page: Page, titleBottom: real, attempts: seq<Attempt>): (pages: seq<GalleryPage>)
    ensures |pages| == (|attempts| + 1) / 2
    ensures |attempts| == 0 <==> pages == []
  {
    PagesFrom(page, titleBottom, attempts, true)
  }

  /** Image i goes to page i/2, into the first slot when i is even and the
      second when i is odd, drawn exactly when its fetch succeeded. */
  lemma {:induction false} PagesFromPlacement(page: Page, titleBottom: real, attempts: seq<Attempt>, first: bool, i: nat)
    requires i < |attempts|
    ensures var pages := PagesFrom(page, titleBottom, attempts, first);
            var p := pages[i / 2];
            (i % 2 == 0 ==> p.image1 == PlaceImage(page, attempts[i], p.slot1))
            && (i % 2 == 1 ==> p.image2 == PlaceImage(page, attempts[i], p.slot2))
    decreases i
  {
    if i >= 2 {
      PagesFromPlacement(page, titleBottom, attempts[2..], false, i - 2);
      assert attempts[2..][i - 2] == attempts[i];
    }
  }

  /** Only the first gallery page carries the section title; every page's
      slots start at its cursor, which is the top margin on the later pages. */
  lemma {:induction false} PagesFromTitles(page: Page, titleBottom: real, attempts: seq<Attempt>, first: bool, k: nat)
    requires k < (|attempts| + 1) / 2
    ensures var p := PagesFrom(page, titleBottom, attempts, first)[k];
            p.hasTitle == (first && k == 0)
            && p.cursor == (if first && k == 0 then titleBottom + TitleGap else page.Top())
            && (p.slot1, p.slot2) == Slots(page, p.cursor)
    decreases k
  {
    if k > 0 {
      PagesFromTitles(page, titleBottom, attempts[2..], false, k - 1);
    }
  }

  /** With an odd number of images the last page fills only its first slot. */
  lemma {:induction false} PagesFromOddTail(page: Page, titleBottom: real, attempts: seq<Attempt>, first: bool)
    requires |attempts| % 2 == 1
    ensures var pages := PagesFrom(page, titleBottom, attempts, first);
            pages[|pages| - 1].image2.None?
    decreases |attempts|
  {
    if |attempts| > 1 {
      PagesFromOddTail(page, titleBottom, attempts[2..], false);
    }
  }

  /** Page k of the gallery: title only on page 0, slot geometry from its
      cursor; image i on page i/2 in slot 1 + i%2. */
  lemma LayoutShape(page: Page, titleBottom: real, attempts: seq<Attempt>, k: nat)
    requires k < (|attempts| + 1) / 2
    ensures var p := Layout(page, titleBottom, attempts)[k];
            && p.hasTitle == (k == 0)
            && p.cursor == (if k == 0 then titleBottom + TitleGap else page.Top())
            && p.slot1.top == p.cursor
            && p.slot1.Height() == p.slot2.Height()
            && p.slot2.top == p.slot1.bottom + SlotGap
            && p.slot2.bottom == page.Bottom()
  {
    PagesFromTitles(page, titleBottom, attempts, true, k);
  }

  /** Given room for the gap below the cursor, the two slots of every page are
      ordered, do not overlap and stay inside the content box vertically. */
  lemma SlotsInside(page: Page, titleBottom: real, attempts: seq<Attempt>, k: nat)
    requires k < (|attempts| + 1) / 2
    requires page.Top() <= titleBottom + TitleGap
    requires titleBottom + TitleGap + SlotGap <= page.Bottom()
    requires page.Top() + SlotGap <= page.Bottom()
    ensures var p := Layout(page, titleBottom, attempts)[k];
            && page.Top() <= p.slot1.top <= p.slot1.bottom
            && p.slot1.bottom < p.slot2.top <= p.slot2.bottom
            && p.slot2.bottom == page.Bottom()
  {
    PagesFromTitles(page, titleBottom, attempts, true, k);
  }

  /** Image i is drawn on gallery page i/2, in slot 1 + i%2, exactly when its
      fetch succeeded; with an odd count the last page's second slot is empty. */
  lemma LayoutPlacement(page: Page, titleBottom: real, attempts: seq<Attempt>, i: nat)
    requires i < |attempts|
    ensures var p := Layout(page, titleBottom, attempts)[i / 2];
            var drawn := if i % 2 == 0 then p.image1 else p.image2;
            && (drawn.Some? <==> attempts[i].fetched.Some?)
            && (drawn.Some? ==> drawn.value.url == attempts[i].url
                                && drawn.value.image == attempts[i].fetched.value)
    ensures |attempts| % 2 == 1 ==>
              Layout(page, titleBottom, attempts)[|attempts| / 2].image2.None?
  {
    PagesFromPlacement(page, titleBottom, attempts, true, i);
    if |attempts| % 2 == 1 {
      PagesFromOddTail(page, titleBottom, attempts, true);
    }
  }

  /** A failed fetch only blanks its own slot: the page count, every page's
      geometry and every other slot are the same as if that fetch had given
      any other outcome. */
  lemma FailureIsolated(page: Page, titleBottom: real, attempts: seq<Attempt>, j: nat, outcome: Option<Bytes>)
    requires j < |attempts|
    ensures var other := attempts[j := Attempt(attempts[j].url, outcome)];
            var pages := Layout(page, titleBottom, attempts);
            var pages' := Layout(page, titleBottom, other);
            && |pages| == |pages'|
            && (forall k :: 0 <= k < |pages| ==>
                  pages[k].hasTitle == pages'[k].hasTitle && pages[k].cursor == pages'[k].cursor
                  && pages[k].slot1 == pages'[k].slot1 && pages[k].slot2 == pages'[k].slot2)
            && (forall i :: 0 <= i < |attempts| && i != j ==>
                  (if i % 2 == 0 then pages[i / 2].image1 else pages[i / 2].image2)
                  == (if i % 2 == 0 then pages'[i / 2].image1 else pages'[i / 2].image2))
  {
    var other := attempts[j := Attempt(attempts[j].url, outcome)];
    var pages := Layout(page, titleBottom, attempts);
    var pages' := Layout(page, titleBottom, other);
    forall k | 0 <= k < |pages|
      ensures pages[k].hasTitle == pages'[k].hasTitle && pages[k].cursor == pages'[k].cursor
              && pages[k].slot1 == pages'[k].slot1 && pages[k].slot2 == pages'[k].slot2
    {
      PagesFromTitles(page, titleBottom, attempts, true, k);
      PagesFromTitles(page, titleBottom, other, true, k);
    }
    forall i | 0 <= i < |attempts| && i != j
      ensures (if i % 2 == 0 then pages[i / 2].image1 else pages[i / 2].image2)
              == (if i % 2 == 0 then pages'[i / 2].image1 else pages'[i / 2].image2)
    {
      PagesFromPlacement(page, titleBottom, attempts, true, i);
      PagesFromPlacement(page, titleBottom, other, true, i);
      PagesFromTitles(page, titleBottom, attempts, true, i / 2);
      PagesFromTitles(page, titleBottom, other, true, i / 2);
    }
  }
}

=== FILE: geometry.dfy ===
/** Page geometry of the report: pdfkit's A4 sheet with the margins the
    renderer opens the document with, and the content box derived from them. */
module Geometry {

  datatype Page = Page(width: real, height: real,
                       marginTop: real, marginLeft: real, marginRight: real, marginBottom: real)
  {
    /** Left edge of the content box (`doc.page.margins.left`). */
    function Left(): real { marginLeft }
    /** Right edge of the content box (`doc.page.width - doc.page.margins.right`). */
    function Right(): real { width - marginRight }
    /** Top edge of the content box (`doc.page.margins.top`). */
    function Top(): real { marginTop }
    /** Bottom edge of the content box (`doc.page.height - doc.page.margins.bottom`). */
    function Bottom(): real { height - marginBottom }
    function ContentWidth(): real { Right() - Left() }

    /** The content box is a non-empty rectangle. */
    predicate Valid() {
      Left() < Right() && Top() < Bottom()
    }
  }

  /** `new PDFDocument({ size: "A4", margins: { top: 40, left: 50, right: 50, bottom: 40 } })`. */
  const A4: Page := Page(595.28, 841.89, 40.0, 50.0, 50.0, 40.0)

  /** The report page has a proper content box of width 495.28 and height 761.89. */
  lemma A4Content()
    ensures A4.Valid()
    ensures A4.ContentWidth() == 495.28
    ensures A4.Bottom() - A4.Top() == 761.89
  {
  }

  /** `Math.max` on two coordinates. */
  function Max(a: real, b: real): (r: real)
    ensures r >= a && r >= b
    ensures r == a || r == b
  {
    if a >= b then a else b
  }
}

=== FILE: header.dfy ===
/** The report header of `makePatrimonioPDF`: an optional logo at the top
    left, the centred titles, an optional QR block at the top right, the
    separator line below the lowest of them, and the floor under which the
    field rows begin. */
module Header {
  import opened Wrappers
  import opened Geometry

  /** The logo is drawn 70 wide; pdfkit scales its height from the image's
      own aspect ratio, but the header counts it as 0.9 of its width tall. */
  const LogoWidth: real := 70.0
  const LogoHeightRatio: real := 0.9
  /** The QR image is a 100 x 100 square; the block, caption included, is
      counted 20 below the square. */
  const QrSize: real := 100.0
  const QrBlockExtra: real := 20.0
  /** The separator sits 8 below the header, and never less than 60 below its top. */
  const SeparatorGap: real := 8.0
  const MinHeaderHeight: real := 60.0
  /** Content starts 20 below the separator, and never less than 160 below the header top. */
  const ContentGap: real := 20.0
  const MinContentOffset: real := 160.0

  /** An image drawn at (x, y) in a box of the given size. For the logo the
      height is the one the header counts (0.9 of the width), not the
      height pdfkit draws it at. */
  datatype ImageBox = ImageBox(image: Bytes, x: real, y: real, width: real, height: real)

  datatype HeaderLayout = HeaderLayout(
    logo: Option<ImageBox>,
    qr: Option<ImageBox>,
    /** Lowest point reached by any header element (`headerBottomY`). */
    bottom: real,
    /** Height of the separator line. */
    separatorY: real,
    /** Where the field rows begin (`contentStartY`). */
    contentStart: real)

  /** Header bottom after the logo step: pushed to the logo's counted extent
      (top + 63) when a logo was fetched and drawn, unchanged otherwise. */
  function AfterLogo(headerTop: real, bottom: real, logo: Option<Bytes>): (r: real)
    ensures r >= bottom
    ensures logo.Some? ==> r >= headerTop + LogoWidth * LogoHeightRatio
    ensures r == bottom || (logo.Some? && r == headerTop + LogoWidth * LogoHeightRatio)
  {
    if logo.Some? then Max(bottom, headerTop + LogoWidth * LogoHeightRatio) else bottom
  }

  /** Header bottom after the titles: at least where the text engine ended them. */
  function AfterTitles(bottom: real, titlesBottom: real): (r: real)
    ensures r >= bottom && r >= titlesBottom
    ensures r == bottom || r == titlesBottom
  {
    Max(bottom, titlesBottom)
  }

  /** Header bottom after the QR step: pushed below the QR block when one was
      encoded and drawn, unchanged otherwise. */
  function AfterQr(headerTop: real, bottom: real, qr: Option<Bytes>): (r: real)
    ensures r >= bottom
    ensures qr.Some? ==> r >= headerTop + QrSize + QrBlockExtra
    ensures r == bottom || (qr.Some? && r == headerTop + QrSize + QrBlockExtra)
  {
    if qr.Some? then Max(bottom, headerTop + QrSize + QrBlockExtra) else bottom
  }

  /** `headerBottomY` as it stands before the logo, after the logo, after the
      titles and after the QR block; it never moves up. */
  function HeaderTrace(headerTop: real, logo: Option<Bytes>, titlesBottom: real, qr: Option<Bytes>): (t: seq<real>)
    ensures |t| == 4 && t[0] == headerTop
    ensures t[0] <= t[1] <= t[2] <= t[3]
  {
    var afterLogo := AfterLogo(headerTop, headerTop, logo);
    var afterTitles := AfterTitles(afterLogo, titlesBottom);
    [headerTop, afterLogo, afterTitles, AfterQr(headerTop, afterTitles, qr)]
  }

  /** The separator line: 8 below the header, but at least 60 below its top. */
  function SeparatorY(headerTop: real, headerBottom: real): (y: real)
    ensures y >= headerBottom + SeparatorGap
    ensures y >= headerTop + MinHeaderHeight
    ensures y == headerBottom + SeparatorGap || y == headerTop + MinHeaderHeight
  {
    Max(headerBottom + SeparatorGap, headerTop + MinHeaderHeight)
  }

  /** Where the content starts: 20 below the separator, but at least 160
      below the header top, so a tall logo or QR block never meets the rows. */
  function ContentStart(headerTop: real, separatorY: real): (y: real)
    ensures y >= separatorY + ContentGap
    ensures y >= headerTop + MinContentOffset
    ensures y == separatorY + ContentGap || y == headerTop + MinContentOffset
  {
    Max(separatorY + ContentGap, headerTop + MinContentOffset)
  }

  /** The header of a page: `logo` and `qr` are what fetching the logo and
      encoding the report URL gave (`None` when there was nothing to draw or
      the attempt threw), `titlesBottom` is where the text engine ended the
      two titles. */
  function Layout(page: Page, logo: Option<Bytes>, titlesBottom: real, qr: Option<Bytes>): (h: HeaderLayout)
    ensures h.logo.Some? <==> logo.Some?
    ensures h.qr.Some? <==> qr.Some?
    ensures h.logo.Some? ==> h.logo.value.image == logo.value
    ensures h.qr.Some? ==> h.qr.value.image == qr.value
    ensures h.qr.Some? ==> h.qr.value.width == QrSize && h.qr.value.height == QrSize
    ensures h.logo.Some? ==> h.logo.value.width == LogoWidth && h.logo.value.height == LogoWidth * LogoHeightRatio
    ensures h.logo.Some? ==> h.logo.value.x == page.Left() && h.logo.value.y == page.Top()
    ensures h.qr.Some? ==> h.qr.value.x + h.qr.value.width == page.Right() && h.qr.value.y == page.Top()
    ensures h.bottom >= page.Top() && h.bottom >= titlesBottom
    ensures logo.Some? ==> h.bottom >= page.Top() + LogoWidth * LogoHeightRatio
    ensures qr.Some? ==> h.bottom >= page.Top() + QrSize + QrBlockExtra
    ensures h.separatorY >= h.bottom + SeparatorGap && h.separatorY >= page.Top() + MinHeaderHeight
    ensures h.contentStart >= h.separatorY + ContentGap && h.contentStart >= page.Top() + MinContentOffset
    ensures h.separatorY == SeparatorY(page.Top(), h.bottom)
    ensures h.contentStart == ContentStart(page.Top(), h.separatorY)
  {
    var top := page.Top();
    var bottom := HeaderTrace(top, logo, titlesBottom, qr)[3];
    var sep := SeparatorY(top, bottom);
    HeaderLayout(
      if logo.Some? then Some(ImageBox(logo.value, page.Left(), top, LogoWidth, LogoWidth * LogoHeightRatio)) else None,
      if qr.Some? then Some(ImageBox(qr.value, page.Right() - QrSize, top, QrSize, QrSize)) else None,
      bottom, sep, ContentStart(top, sep))
  }

  /** The header bottom is exactly the lowest counted extent of the header's
      elements: the header top, the titles, and the logo or QR block when
      drawn (the logo counted at 63, whatever height it is drawn at). */
  lemma BottomIsLowestExtent(page: Page, logo: Option<Bytes>, titlesBottom: real, qr: Option<Bytes>)
    ensures var b := Layout(page, logo, titlesBottom, qr).bottom;
            || b == page.Top()
            || b == titlesBottom
            || (logo.Some? && b == page.Top() + LogoWidth * LogoHeightRatio)
            || (qr.Some? && b == page.Top() + QrSize + QrBlockExtra)
  {
  }

  /** A failed logo or QR attempt never pushes the content down: drawing an
      element can only move the separator and the content start lower. */
  lemma FailureNeverLowersContent(page: Page, logo: Option<Bytes>, titlesBottom: real, qr: Option<Bytes>)
    ensures Layout(page, None, titlesBottom, qr).contentStart <= Layout(page, logo, titlesBottom, qr).contentStart
    ensures Layout(page, logo, titlesBottom, None).contentStart <= Layout(page, logo, titlesBottom, qr).contentStart
  {
  }

  /** On the report's A4 page with a logo and a QR code and titles ending
      above the QR block, the header ends at 160, the separator at 168 and
      the content at 200. */
  lemma FullHeaderOnA4(logo: Bytes, titlesBottom: real, qr: Bytes)
    requires titlesBottom <= 160.0
    ensures var h := Layout(A4, Some(logo), titlesBottom, Some(qr));
            h.bottom == 160.0 && h.separatorY == 168.0 && h.contentStart == 200.0
  {
  }
}

=== FILE: js_values.dfy ===
/** The few JavaScript value rules the report relies on: the values a MySQL
    row hands to the renderer, their truthiness, `String(x)`, `x || y` and
    `x ?? y`. Only integral numbers within the safe-integer range are represented. */
module JsValues {

  /** Largest integer a JavaScript number holds exactly (`Number.MAX_SAFE_INTEGER`). */
  const MaxSafeInteger: int := 9_007_199_254_740_991

  /** Integers a JavaScript number represents exactly; `String` writes all of
      them as plain decimal digits (exponent form only starts at 10^21). */
  type SafeInt = n: int | -MaxSafeInteger <= n <= MaxSafeInteger

  datatype JsValue = Null | Undefined | Str(s: string) | Bool(b: bool) | Num(n: SafeInt)

  /** `null` and `undefined`, the two values `??` replaces. */
  predicate Nullish(v: JsValue) {
    v.Null? || v.Undefined?
  }

  /** JavaScript truthiness: `null`, `undefined`, `""`, `false` and `0` are falsy. */
  predicate Truthy(v: JsValue) {
    match v
    case Null => false
    case Undefined => false
    case Str(s) => s != ""
    case Bool(b) => b
    case Num(n) => n != 0
  }

  /** `x || y`: the left operand when it is truthy, otherwise the right one. */
  function Or(x: JsValue, y: JsValue): (r: JsValue)
    ensures Truthy(x) ==> r == x
    ensures !Truthy(x) ==> r == y
  {
    if Truthy(x) then x else y
  }

  /** `x ?? y`: the left operand unless it is `null` or `undefined`. */
  function Coalesce(x: JsValue, y: JsValue): (r: JsValue)
    ensures !Nullish(x) ==> r == x
    ensures Nullish(x) ==> r == y
  {
    if Nullish(x) then y else x
  }

  function DigitChar(d: nat): (c: char)
    requires d < 10
    ensures '0' <= c <= '9'
  {
    "0123456789"[d]
  }

  /** Decimal digits of a natural number, most significant first, no leading zeros. */
  function NatToDecimal(n: nat): (r: string)
    ensures |r| >= 1
    ensures IsDigits(r)
    ensures n > 0 ==> r[0] != '0'
    ensures n == 0 ==> r == "0"
    decreases n
  {
    if n < 10 then [DigitChar(n)] else NatToDecimal(n / 10) + [DigitChar(n % 10)]
  }

  predicate IsDigits(s: string) {
    forall i :: 0 <= i < |s| ==> '0' <= s[i] <= '9'
  }

  /** Numeric value of a string of decimal digits. */
  function DecimalValue(s: string): nat
    requires IsDigits(s)
  {
    if |s| == 0 then 0 else DecimalValue(s[..|s| - 1]) * 10 + (s[|s| - 1] as int - '0' as int)
  }

  /** Reading back the decimal digits gives the number: `String(n)` loses nothing. */
  lemma {:induction false} NatToDecimalRoundTrip(n: nat)
    ensures DecimalValue(NatToDecimal(n)) == n
    decreases n
  {
    var r := NatToDecimal(n);
    if n < 10 {
      assert r == [DigitChar(n)];
      assert r[..0] == [];
      assert "0123456789"[n] as int - '0' as int == n;
    } else {
      NatToDecimalRoundTrip(n / 10);
      var hi := NatToDecimal(n / 10);
      assert r[..|r| - 1] == hi;
      assert "0123456789"[n % 10] as int - '0' as int == n % 10;
    }
  }

  /** `String(v)` for the represented values. */
  function ToJsString(v: JsValue): (r: string)
    ensures v.Str? ==> r == v.s
    ensures v.Num? && v.n >= 0 ==> IsDigits(r) && DecimalValue(r) == v.n
    ensures v.Num? && v.n >= 0 ==> |r| >= 1 && (r[0] == '0' ==> |r| == 1)
    ensures v.Num? && v.n < 0 ==> |r| >= 2 && r[0] == '-' && IsDigits(r[1..]) && DecimalValue(r[1..]) == -v.n
    ensures v.Num? && v.n < 0 ==> r[1] != '0'
    ensures v.Null? ==> r == "null"
    ensures v.Undefined? ==> r == "undefined"
    ensures v.Bool? ==> r == (if v.b then "true" else "false")
  {
    match v
    case Null => "null"
    case Undefined => "undefined"
    case Str(s) => s
    case Bool(b) => if b then "true" else "false"
    case Num(n) =>
      var digits := NatToDecimal(if n >= 0 then n else -n);
      NatToDecimalRoundTrip(if n >= 0 then n else -n);
      if n >= 0 then digits else assert ("-" + digits)[1..] == digits; "-" + digits
  }
}

=== FILE: report.dfy ===
/** The report composer (`makePatrimonioPDF`) and the report endpoint that
    feeds it: header, the twelve field rows, the image gallery and the
    footer, laid out on A4 pages. Everything pdfkit measures, and every
    fetch and QR encoding, comes in through `Env`. */
module Report {
  import opened Wrappers
  import opened JsValues
  import opened Geometry
  import opened FieldBlock
  import Gallery
  import Header
  import opened Attachments
  import opened StorageKeys

  /** The asset row the report is drawn from (the columns the renderer reads). */
  datatype Asset = Asset(
    cprName: JsValue, cprId: JsValue,
    bpmName: JsValue, bpmId: JsValue,
    pcsName: JsValue, pcsId: JsValue,
    moduleTag: JsValue, towerTag: JsValue,
    location: JsValue, address: JsValue,
    baseFound: JsValue, moduleFound: JsValue, towerFound: JsValue,
    notes: JsValue)

  /** The outside world as the composer sees it. */
  datatype Env = Env(
    /** The configured logo URL; empty when none is configured. */
    logoUrl: string,
    /** `fetchBuffer` followed by pdfkit's decoding: `None` when either threw. */
    fetch: string -> Option<Bytes>,
    /** `QRCode.toDataURL` and its base64 decoding: `None` when it threw. */
    encodeQr: string -> Option<Bytes>,
    /** Where the text engine ended the two centred titles. */
    titlesBottom: real,
    /** Where the text engine ended the gallery's section title. */
    galleryTitleBottom: real,
    /** Height the text engine gives a value text laid out in a column of the given width. */
    valueHeight: (string, real) -> real)

  const DefaultTitle: string := "Relatório de Patrimônio"
  /** All field rows are drawn at x = 50. */
  const FieldX: real := 50.0
  /** The footer line sits 20 above the bottom margin. */
  const FooterLift: real := 20.0

  const Labels: seq<string> := [
    "CPR:", "BPM:", "PCS:", "N. Tombamento Módulo:", "N. Tombamento Torre:", "PCS:",
    "Localização (URL):", "Endereço:", "Base localizada:", "Módulo localizado:",
    "Torre localizada:", "Observações:"]

  datatype Field = Field(caption: string, value: JsValue)

  /** `flag ? "Sim" : "Não"`. */
  function YesNo(flag: JsValue): (v: JsValue)
    ensures v == Str("Sim") <==> Truthy(flag)
    ensures v == Str("Não") <==> !Truthy(flag)
  {
    if Truthy(flag) then Str("Sim") else Str("Não")
  }

  /** `name || String(fallback)`. */
  function NameOr(name: JsValue, fallback: JsValue): (v: JsValue)
    ensures Truthy(name) ==> v == name
    ensures !Truthy(name) ==> v == Str(ToJsString(fallback))
  {
    Or(name, Str(ToJsString(fallback)))
  }

  /** The twelve (label, value) pairs, in drawing order. */
  function Fields(a: Asset): (fs: seq<Field>)
    ensures |fs| == |Labels|
    ensures forall k :: 0 <= k < |fs| ==> fs[k].caption == Labels[k]
  {
    [ Field(Labels[0], NameOr(a.cprName, a.cprId)),
      Field(Labels[1], NameOr(a.bpmName, a.bpmId)),
      Field(Labels[2], NameOr(a.pcsName, a.pcsId)),
      Field(Labels[3], NameOr(a.moduleTag, a.moduleTag)),
      Field(Labels[4], NameOr(a.towerTag, a.towerTag)),
      Field(Labels[5], NameOr(a.pcsName, a.pcsId)),
      Field(Labels[6], a.location),
      Field(Labels[7], a.address),
      Field(Labels[8], YesNo(a.baseFound)),
      Field(Labels[9], YesNo(a.moduleFound)),
      Field(Labels[10], YesNo(a.towerFound)),
      Field(Labels[11], NameOr(a.notes, a.notes)) ]
  }

  /** The text each row shows in its value column. */
  function RowTexts(a: Asset): (ts: seq<string>)
    ensures |ts| == |Labels|
    ensures forall k :: 0 <= k < |ts| ==> ts[k] == DisplayText(Fields(a)[k].value)
  {
    var fs := Fields(a);
    seq(|fs|, k requires 0 <= k < |fs| => DisplayText(fs[k].value))
  }

  /** What the rows show: a unit's name when it has one and its id
      otherwise; the location and address, or "-" when null; "Sim"/"Não"
      for the three flags; and for the two asset tags and the notes the
      value itself in every case, `String(x)`: a null one comes out as the
      word "null" (`x || String(x)` falls back to the same value, never to
      "-"), and a truthy one shows as itself. */
  lemma RowTextMeaning(a: Asset)
    ensures var ts := RowTexts(a);
            && (a.cprName.Str? && a.cprName.s != "" ==> ts[0] == a.cprName.s)
            && (!Truthy(a.cprName) ==> ts[0] == ToJsString(a.cprId))
            && (a.bpmName.Str? && a.bpmName.s != "" ==> ts[1] == a.bpmName.s)
            && (!Truthy(a.bpmName) ==> ts[1] == ToJsString(a.bpmId))
            && (a.pcsName.Str? && a.pcsName.s != "" ==> ts[2] == a.pcsName.s)
            && ts[2] == ts[5]
            && (!Truthy(a.pcsName) ==> ts[2] == ToJsString(a.pcsId))
            && (Truthy(a.moduleTag) && a.moduleTag.Str? ==> ts[3] == a.moduleTag.s)
            && (Truthy(a.moduleTag) && a.moduleTag.Num? ==> ts[3] == ToJsString(a.moduleTag))
            && (a.moduleTag.Null? ==> ts[3] == "null")
            && (Truthy(a.towerTag) && a.towerTag.Str? ==> ts[4] == a.towerTag.s)
            && (Truthy(a.towerTag) && a.towerTag.Num? ==> ts[4] == ToJsString(a.towerTag))
            && (a.towerTag.Null? ==> ts[4] == "null")
            && (a.notes.Null? ==> ts[11] == "null")
            && (Truthy(a.notes) && a.notes.Str? ==> ts[11] == a.notes.s)
            && (Nullish(a.location) ==> ts[6] == Placeholder)
            && (a.location.Str? ==> ts[6] == a.location.s)
            && (Nullish(a.address) ==> ts[7] == Placeholder)
            && (a.address.Str? ==> ts[7] == a.address.s)
            && (ts[8] == "Sim" <==> Truthy(a.baseFound))
            && (ts[9] == "Sim" <==> Truthy(a.moduleFound))
            && (ts[10] == "Sim" <==> Truthy(a.towerFound))
            && ts[3] == ToJsString(a.moduleTag)
            && ts[4] == ToJsString(a.towerTag)
            && ts[11] == ToJsString(a.notes)
            && ts[8] == (if Truthy(a.baseFound) then "Sim" else "Não")
            && ts[9] == (if Truthy(a.moduleFound) then "Sim" else "Não")
            && ts[10] == (if Truthy(a.towerFound) then "Sim" else "Não")
  {
  }

  /** One drawn field row: its caption, its value text, the cursor it was drawn at. */
  datatype Row = Row(caption: string, text: string, y: real, columns: Columns)

  /** The footer line and its timestamp, drawn once, on the last page. */
  datatype Footer = Footer(page: nat, lineY: real)

  datatype Document = Document(
    title: string,
    header: Header.HeaderLayout,
    rows: seq<Row>,
    /** Cursor after the last row. */
    fieldsEnd: real,
    gallery: seq<Gallery.GalleryPage>,
    footer: Footer)
  {
    /** The first page plus one page per gallery pair. */
    function PageCount(): nat { 1 + |gallery| }
  }

  /** The logo is attempted only when a logo URL is configured, and drawn
      only when fetching it succeeded. */
  function LogoOutcome(env: Env): (logo: Option<Bytes>)
    ensures logo.Some? <==> env.logoUrl != "" && env.fetch(env.logoUrl).Some?
    ensures logo.Some? ==> logo == env.fetch(env.logoUrl)
  {
    if env.logoUrl == "" then None else env.fetch(env.logoUrl)
  }

  /** The QR block is attempted only for a non-empty report URL, and drawn
      only when encoding it succeeded. */
  function QrOutcome(env: Env, reportUrl: string): (qr: Option<Bytes>)
    ensures qr.Some? <==> reportUrl != "" && env.encodeQr(reportUrl).Some?
    ensures qr.Some? ==> qr == env.encodeQr(reportUrl)
  {
    if reportUrl == "" then None else env.encodeQr(reportUrl)
  }

  /** The gallery's input: each image URL with what fetching it gave. */
  function GalleryAttempts(env: Env, urls: seq<string>): (attempts: seq<Gallery.Attempt>)
    ensures |attempts| == |urls|
    ensures forall k :: 0 <= k < |urls| ==> attempts[k].url == urls[k]
  {
    seq(|urls|, k requires 0 <= k < |urls| => Gallery.Attempt(urls[k], env.fetch(urls[k])))
  }

  /** Heights the text engine gives the value texts. */
  function Extents(env: Env, texts: seq<string>, width: real): (hs: seq<real>)
    ensures |hs| == |texts|
  {
    seq(|texts|, k requires 0 <= k < |texts| => env.valueHeight(texts[k], width))
  }

  /** Field rows drawn from `start` with the given value texts, each row's
      returned cursor feeding the next, and the cursor after the block. */
  datatype RowBlock = RowBlock(rows: seq<Row>, end: real)

  function LayoutRows(env: Env, start: real, texts: seq<string>): (b: RowBlock)
    requires |texts| == |Labels|
    ensures |b.rows| == |Labels|
    ensures forall k :: 0 <= k < |b.rows| ==> b.rows[k].caption == Labels[k] && b.rows[k].text == texts[k]
    ensures b.rows[0].y == start
  {
    var columns := RowColumns(A4, FieldX, DefaultLabelWidth);
    var trace := CursorTrace(start, DefaultLineHeight, Extents(env, texts, columns.valueWidth));
    RowBlock(seq(|texts|, k requires 0 <= k < |texts| => Row(Labels[k], texts[k], trace[k], columns)),
             trace[|texts|])
  }

  /** Consecutive rows are chained through the row rule: each starts where
      the previous one's returned cursor points, at least one minimum row
      lower, and the value column is at least 10 wide; the block ends at
      least twelve minimum rows below its start. */
  lemma RowsChained(env: Env, start: real, texts: seq<string>, k: nat)
    requires |texts| == |Labels|
    requires k < |Labels|
    ensures var b := LayoutRows(env, start, texts);
            var next := if k + 1 < |b.rows| then b.rows[k + 1].y else b.end;
            && b.rows[k].columns.valueWidth >= MinValueWidth
            && next == NextCursor(b.rows[k].y, DefaultLineHeight,
                                  b.rows[k].y + env.valueHeight(texts[k], b.rows[k].columns.valueWidth))
            && next >= b.rows[k].y + DefaultLineHeight + RowPadding
    ensures LayoutRows(env, start, texts).end >= start + (|Labels| as real) * (DefaultLineHeight + RowPadding)
  {
    var columns := RowColumns(A4, FieldX, DefaultLabelWidth);
    var extents := Extents(env, texts, columns.valueWidth);
    CursorTraceStep(start, DefaultLineHeight, extents, k);
    CursorTraceAdvances(start, DefaultLineHeight, extents, k);
    CursorTraceLowerBound(start, DefaultLineHeight, extents, |texts|);
  }

  /** The whole report for an asset, its attachments and the URL the QR code
      points at. */
  function Compose(env: Env, a: Asset, attachments: seq<Attachment>, reportUrl: string, title: string): (d: Document)
    ensures RowBlock(d.rows, d.fieldsEnd) == LayoutRows(env, d.header.contentStart, RowTexts(a))
    ensures |d.rows| == |Labels|
    ensures d.rows[0].y == d.header.contentStart
    ensures d.rows[0].y >= A4.Top() + Header.MinContentOffset
    ensures d.header == Header.Layout(A4, LogoOutcome(env), env.titlesBottom, QrOutcome(env, reportUrl))
    ensures d.header.logo.Some? <==> env.logoUrl != "" && env.fetch(env.logoUrl).Some?
    ensures d.header.qr.Some? <==> reportUrl != "" && env.encodeQr(reportUrl).Some?
    ensures d.gallery == Gallery.Layout(A4, env.galleryTitleBottom, GalleryAttempts(env, ImageUrls(attachments)))
    ensures d.PageCount() == 1 + (|ImagePositions(attachments)| + 1) / 2
    ensures d.footer.page == d.PageCount() - 1
    ensures d.footer.lineY == A4.Bottom() - FooterLift
  {
    var header := Header.Layout(A4, LogoOutcome(env), env.titlesBottom, QrOutcome(env, reportUrl));
    var block := LayoutRows(env, header.contentStart, RowTexts(a));
    var urls := ImageUrls(attachments);
    ImageUrlsSelects(attachments);
    var gallery := if |attachments| > 0 && |urls| > 0
                   then Gallery.Layout(A4, env.galleryTitleBottom, GalleryAttempts(env, urls))
                   else [];
    Document(title, header, block.rows, block.end, gallery,
             Footer(|gallery|, A4.Bottom() - FooterLift))
  }

  /** The gallery pages show the image attachments in their original order,
      two per page: the k-th image attachment is drawn on gallery page k/2,
      in slot 1 + k%2, exactly when its fetch succeeded. */
  lemma GalleryShowsImages(env: Env, a: Asset, attachments: seq<Attachment>, reportUrl: string, title: string, k: nat)
    requires k < |ImagePositions(attachments)|
    ensures var d := Compose(env, a, attachments, reportUrl, title);
            var att := attachments[ImagePositions(attachments)[k]];
            var p := d.gallery[k / 2];
            var drawn := if k % 2 == 0 then p.image1 else p.image2;
            && (drawn.Some? <==> env.fetch(att.url).Some?)
            && (drawn.Some? ==> drawn.value.url == att.url)
  {
    var urls := ImageUrls(attachments);
    ImageUrlsSelects(attachments);
    var attempts := GalleryAttempts(env, urls);
    Gallery.LayoutPlacement(A4, env.galleryTitleBottom, attempts, k);
  }

  /** Nothing the outside world does (failed fetches or QR encodings, the
      configured logo, the text engine's measurements) changes the report's
      page count, its field captions or its field texts: a failure only
      leaves its own element out. */
  lemma FailuresKeepStructure(env: Env, env': Env, a: Asset, attachments: seq<Attachment>, reportUrl: string, title: string)
    ensures var d := Compose(env, a, attachments, reportUrl, title);
            var d' := Compose(env', a, attachments, reportUrl, title);
            && d.PageCount() == d'.PageCount()
            && |d.rows| == |d'.rows|
            && forall k :: 0 <= k < |d.rows| ==> d.rows[k].caption == d'.rows[k].caption && d.rows[k].text == d'.rows[k].text
  {
  }

  /** What gallery page k/2 shows in the slot of the k-th image: its first
      slot for even k, its second for odd k. */
  function SlotOf(gallery: seq<Gallery.GalleryPage>, k: nat): Option<Gallery.Placement>
    requires k / 2 < |gallery|
  {
    if k % 2 == 0 then gallery[k / 2].image1 else gallery[k / 2].image2
  }

  /** Three image attachments among any others: the report has three pages,
      the first holding header and fields, then two gallery pages holding two
      images and one. */
  lemma ThreeImagesThreePages(env: Env, a: Asset, attachments: seq<Attachment>, reportUrl: string, title: string)
    requires |ImagePositions(attachments)| == 3
    ensures var d := Compose(env, a, attachments, reportUrl, title);
            && d.PageCount() == 3
            && d.gallery[0].hasTitle && !d.gallery[1].hasTitle
            && d.gallery[1].image2.None?
  {
    var urls := ImageUrls(attachments);
    ImageUrlsSelects(attachments);
    var attempts := GalleryAttempts(env, urls);
    assert |attempts| == 3;
    var gallery := Gallery.Layout(A4, env.galleryTitleBottom, attempts);
    Gallery.LayoutShape(A4, env.galleryTitleBottom, attempts, 0);
    Gallery.LayoutShape(A4, env.galleryTitleBottom, attempts, 1);
    Gallery.LayoutPlacement(A4, env.galleryTitleBottom, attempts, 2);
    assert |gallery| == 2 && gallery[0].hasTitle && !gallery[1].hasTitle && gallery[1].image2.None?;
    assert Compose(env, a, attachments, reportUrl, title).gallery == gallery;
  }

  /** With three image attachments, the first two share gallery page 1 and
      the third is alone on gallery page 2; each is drawn exactly when its
      own fetch succeeded. */
  lemma ThreeImagesPlacement(env: Env, a: Asset, attachments: seq<Attachment>, reportUrl: string, title: string)
    requires |ImagePositions(attachments)| == 3
    ensures var d := Compose(env, a, attachments, reportUrl, title);
            && |d.gallery| == 2
            && forall k :: 0 <= k < 3 ==>
                 var att := attachments[ImagePositions(attachments)[k]];
                 && (SlotOf(d.gallery, k).Some? <==> env.fetch(att.url).Some?)
                 && (SlotOf(d.gallery, k).Some? ==> SlotOf(d.gallery, k).value.url == att.url)
  {
    var d := Compose(env, a, attachments, reportUrl, title);
    forall k | 0 <= k < 3
      ensures var att := attachments[ImagePositions(attachments)[k]];
              && (SlotOf(d.gallery, k).Some? <==> env.fetch(att.url).Some?)
              && (SlotOf(d.gallery, k).Some? ==> SlotOf(d.gallery, k).value.url == att.url)
    {
      GalleryShowsImages(env, a, attachments, reportUrl, title, k);
    }
  }

  /** What the report endpoint stores: the fixed key, its public URL, and the
      report drawn with that URL in its QR code. */
  datatype StoredReport = StoredReport(key: string, url: string, document: Document)

  /** The report endpoint: the report of asset `id` always goes to
      `reports/{id}.pdf`, and since its URL is never empty the QR block is
      drawn exactly when encoding that URL succeeds, showing that encoding.
      The document is the one `Compose` draws for this asset, its
      attachments and the same outside world, so its gallery and logo carry
      `Compose`'s and `GalleryShowsImages`' promises. */
  function GenerateReport(env: Env, bucket: string, id: string, a: Asset, attachments: seq<Attachment>): (r: StoredReport)
    ensures r.key == ReportKey(id)
    ensures r.url == PublicUrl(bucket, r.key)
    ensures r.document.header.qr.Some? <==> env.encodeQr(r.url).Some?
    ensures r.document.title == DefaultTitle
    ensures r.document.header.qr.Some? ==> r.document.header.qr.value.image == env.encodeQr(r.url).value
    ensures r.document.PageCount() == 1 + (|ImagePositions(attachments)| + 1) / 2
    ensures |r.document.rows| == |Labels|
    ensures forall k :: 0 <= k < |Labels| ==> r.document.rows[k].text == RowTexts(a)[k]
    ensures r.document == Compose(env, a, attachments, r.url, DefaultTitle)
  {
    var key := ReportKey(id);
    var url := PublicUrl(bucket, key);
    StoredReport(key, url, Compose(env, a, attachments, url, DefaultTitle))
  }
}

=== FILE: storage_keys.dfy ===
/** Object-storage keys and public URLs of the handler: the key an uploaded
    file is stored under, the fixed key of an asset's report, the public URL
    built from a key, and the key recovered from that URL when the object is
    deleted (`decodeURIComponent(url.split(".amazonaws.com/")[1])`). */
module StorageKeys {
  import opened Wrappers

  const UploadPrefix: string := "public/"
  const ReportPrefix: string := "reports/"
  const ReportSuffix: string := ".pdf"
  const UrlScheme: string := "https://"
  /** Part of the host between the bucket name and the separator. */
  const RegionlessS3: string := ".s3"
  /** The string the deletion path splits the URL at. */
  const KeySeparator: string := ".amazonaws.com/"
  /** What `decodeURIComponent(undefined)` gives when the URL holds no separator. */
  const UndefinedText: string := "undefined"
  /** The bucket used when no bucket is configured. */
  const DefaultBucket: string := "bucketpmdfcomissaopcs75f9a-dev"

  /** `public/{uuid}-{name}`: the key of an uploaded attachment. */
  function UploadKey(uuid: string, name: string): (key: string)
    ensures |key| == |UploadPrefix| + |uuid| + 1 + |name|
    ensures UploadPrefix <= key
    ensures key[|key| - |name|..] == name
    ensures key[|UploadPrefix|..|UploadPrefix| + |uuid|] == uuid
    ensures key[|UploadPrefix| + |uuid|] == '-'
  {
    UploadPrefix + uuid + "-" + name
  }

  /** `reports/{id}.pdf`: the one key per asset that regenerating the report overwrites. */
  function ReportKey(id: string): (key: string)
    ensures |key| == |ReportPrefix| + |id| + |ReportSuffix|
    ensures ReportPrefix <= key
    ensures key[|ReportPrefix|..|key| - |ReportSuffix|] == id
    ensures key[|key| - |ReportSuffix|..] == ReportSuffix
  {
    ReportPrefix + id + ReportSuffix
  }

  /** Distinct asset ids get distinct report keys. */
  lemma ReportKeyInjective(id1: string, id2: string)
    requires ReportKey(id1) == ReportKey(id2)
    ensures id1 == id2
  {
    var k := ReportKey(id1);
    assert id1 == k[|ReportPrefix|..|k| - |ReportSuffix|];
  }

  /** The text the host part of a public URL starts with, up to the separator. */
  function HostHead(bucket: string): string {
    UrlScheme + bucket + RegionlessS3
  }

  /** `https://{bucket}.s3.amazonaws.com/{key}`. */
  function PublicUrl(bucket: string, key: string): (url: string)
    ensures HostHead(bucket) + KeySeparator <= url
    ensures url[|HostHead(bucket)| + |KeySeparator|..] == key
  {
    HostHead(bucket) + KeySeparator + key
  }

  predicate OccursAt(s: string, sep: string, i: nat) {
    i + |sep| <= |s| && s[i..i + |sep|] == sep
  }

  ghost predicate Contains(s: string, sep: string) {
    exists i: nat :: OccursAt(s, sep, i)
  }

  /** `s.indexOf(sep, from)`: the first occurrence of `sep` at or after `from`. */
  function IndexOf(s: string, sep: string, from: nat): (r: Option<nat>)
    requires from <= |s|
    ensures r.Some? ==> from <= r.value && OccursAt(s, sep, r.value)
    ensures r.Some? ==> forall j: nat :: from <= j < r.value ==> !OccursAt(s, sep, j)
    ensures r.None? ==> forall j: nat :: from <= j ==> !OccursAt(s, sep, j)
    decreases |s| - from
  {
    if OccursAt(s, sep, from) then Some(from)
    else if from == |s| then None
    else IndexOf(s, sep, from + 1)
  }

  /** `piece` is what `split` puts second: it starts right after the first
      occurrence of `sep`, no occurrence starts inside it, and it ends where
      the next occurrence starts or at the end of `s`. */
  ghost predicate IsSecondPiece(s: string, sep: string, piece: string) {
    && IndexOf(s, sep, 0).Some?
    && var start := IndexOf(s, sep, 0).value + |sep|;
       && start + |piece| <= |s|
       && s[start..start + |piece|] == piece
       && (forall j: nat :: start <= j < start + |piece| ==> !OccursAt(s, sep, j))
       && (start + |piece| == |s| || OccursAt(s, sep, start + |piece|))
  }

  /** `s.split(sep)[1]` for a non-empty separator: the text between the first
      and the second occurrence (or the end), `None` (JavaScript's
      `undefined`) when `sep` does not occur at all. */
  function SecondPiece(s: string, sep: string): (piece: Option<string>)
    requires |sep| > 0
    ensures piece.None? <==> !Contains(s, sep)
    ensures piece.Some? ==> !Contains(piece.value, sep)
    ensures piece.Some? ==> IsSecondPiece(s, sep, piece.value)
  {
    match IndexOf(s, sep, 0)
    case None => None
    case Some(i) =>
      var rest := i + |sep|;
      match IndexOf(s, sep, rest)
      case None =>
        NoOccurrenceInSuffix(s, sep, rest);
        Some(s[rest..])
      case Some(j) =>
        NoOccurrenceInSlice(s, sep, rest, j);
        Some(s[rest..j])
  }

  /** An occurrence inside a slice is an occurrence in the whole string. */
  lemma OccursInSlice(s: string, sep: string, from: nat, to: nat, i: nat)
    requires from <= to <= |s|
    ensures OccursAt(s[from..to], sep, i) ==> OccursAt(s, sep, from + i) && from + i + |sep| <= to
  {
    if OccursAt(s[from..to], sep, i) {
      var slice := s[from..to];
      forall k | 0 <= k < |sep| ensures s[from + i + k] == sep[k] {
        assert slice[i..i + |sep|][k] == slice[i + k] == s[from + i + k];
      }
      assert s[from + i..from + i + |sep|] == sep;
    }
  }

  lemma NoOccurrenceInSuffix(s: string, sep: string, from: nat)
    requires from <= |s|
    requires forall j: nat :: from <= j ==> !OccursAt(s, sep, j)
    ensures !Contains(s[from..], sep)
  {
    assert s[from..] == s[from..|s|];
    forall i: nat ensures !OccursAt(s[from..], sep, i) {
      OccursInSlice(s, sep, from, |s|, i);
    }
  }

  lemma NoOccurrenceInSlice(s: string, sep: string, from: nat, to: nat)
    requires |sep| > 0
    requires from <= to <= |s|
    requires forall j: nat :: from <= j < to ==> !OccursAt(s, sep, j)
    ensures !Contains(s[from..to], sep)
  {
    forall i: nat ensures !OccursAt(s[from..to], sep, i) {
      OccursInSlice(s, sep, from, to, i);
    }
  }

  /** One differing character rules an occurrence out. */
  lemma MismatchAt(s: string, sep: string, i: nat, k: nat)
    requires k < |sep| && i + k < |s|
    requires s[i + k] != sep[k]
    ensures !OccursAt(s, sep, i)
  {
    if i + |sep| <= |s| {
      assert s[i..i + |sep|][k] == s[i + k];
    }
  }

  /** Past a prefix, occurrences in a concatenation are those of the suffix. */
  lemma OccursAfterPrefix(pre: string, t: string, sep: string, i: nat)
    requires i >= |pre|
    ensures OccursAt(pre + t, sep, i) <==> OccursAt(t, sep, i - |pre|)
  {
    if i + |sep| <= |pre + t| {
      assert (pre + t)[i..i + |sep|] == t[i - |pre|..i - |pre| + |sep|];
    }
  }

  /** What the deletion path obtains from a stored URL. `decodeURIComponent`
      is the identity on text without `%`; text with a `%` would be
      percent-decoded (or rejected), which is kept apart as `NeedsDecoding`. */
  datatype RecoveredKey = Recovered(key: string) | NeedsDecoding(raw: string)

  /** `decodeURIComponent(url.split(".amazonaws.com/")[1])`. */
  function DeletionKey(url: string): (r: RecoveredKey)
    ensures !Contains(url, KeySeparator) ==> r == Recovered(UndefinedText)
    ensures r.Recovered? ==> '%' !in r.key && !Contains(r.key, KeySeparator)
    ensures r.NeedsDecoding? ==> '%' in r.raw
    ensures Contains(url, KeySeparator) ==>
              SecondPiece(url, KeySeparator).Some?
              && IsSecondPiece(url, KeySeparator, SecondPiece(url, KeySeparator).value)
              && (r.Recovered? ==> r.key == SecondPiece(url, KeySeparator).value)
              && (r.NeedsDecoding? ==> r.raw == SecondPiece(url, KeySeparator).value)
  {
    var text := SecondPiece(url, KeySeparator).GetOr(UndefinedText);
    if '%' in text then NeedsDecoding(text)
    else
      assert !Contains(UndefinedText, KeySeparator) by {
        forall i: nat | OccursAt(UndefinedText, KeySeparator, i) ensures false { }
      }
      Recovered(text)
  }

  /** A bucket name S3 accepts never holds a `/`. */
  predicate SlashFree(s: string) {
    '/' !in s
  }

  /** In a public URL the first separator is the one after the bucket. */
  lemma FirstSeparatorAfterBucket(bucket: string, key: string)
    requires SlashFree(bucket)
    ensures IndexOf(PublicUrl(bucket, key), KeySeparator, 0) == Some(|HostHead(bucket)|)
  {
    var url := PublicUrl(bucket, key);
    var p := |HostHead(bucket)|;
    assert OccursAt(url, KeySeparator, p);
    // The separator ends in its only `/`; no `/` of the URL before the one
    // after the host can close an occurrence.
    var slash := |KeySeparator| - 1;
    assert KeySeparator[slash] == '/';
    forall j: nat | j < p ensures !OccursAt(url, KeySeparator, j) {
      if j + slash < p {
        assert url[j + slash] == HostHead(bucket)[j + slash];
        if j + slash < |UrlScheme| + |bucket| {
          assert HostHead(bucket)[j + slash] == bucket[j + slash - |UrlScheme|];
        } else {
          assert HostHead(bucket)[j + slash] == RegionlessS3[j + slash - |UrlScheme| - |bucket|];
        }
      } else {
        assert url[j + slash] == KeySeparator[j + slash - p];
      }
      MismatchAt(url, KeySeparator, j, slash);
    }
    IndexOfFinds(url, KeySeparator, 0, p);
  }

  /** `IndexOf` finds an occurrence preceded by none. */
  lemma {:induction false} IndexOfFinds(s: string, sep: string, from: nat, i: nat)
    requires from <= i <= |s|
    requires OccursAt(s, sep, i)
    requires forall j: nat :: from <= j < i ==> !OccursAt(s, sep, j)
    ensures IndexOf(s, sep, from) == Some(i)
    decreases i - from
  {
    if from < i {
      IndexOfFinds(s, sep, from + 1, i);
    }
  }

  /** Key round trip: the deletion path recovers the key a public URL was
      built from, when the bucket has no `/` and the key neither holds the
      separator nor a `%`. */
  lemma KeyRoundTrip(bucket: string, key: string)
    requires SlashFree(bucket)
    requires !Contains(key, KeySeparator)
    requires '%' !in key
    ensures DeletionKey(PublicUrl(bucket, key)) == Recovered(key)
  {
    var url := PublicUrl(bucket, key);
    var rest := |HostHead(bucket)| + |KeySeparator|;
    FirstSeparatorAfterBucket(bucket, key);
    assert url[rest..] == key;
    assert url == HostHead(bucket) + KeySeparator + key;
    forall j: nat | rest <= j ensures !OccursAt(url, KeySeparator, j) {
      OccursAfterPrefix(HostHead(bucket) + KeySeparator, key, KeySeparator, j);
    }
    assert IndexOf(url, KeySeparator, rest).None?;
  }

  /** The shape of `uuidv4()`: 36 characters, hexadecimal digits and dashes. */
  predicate UuidShaped(u: string) {
    |u| == 36 && forall i :: 0 <= i < |u| ==> u[i] in "0123456789abcdef-"
  }

  /** The part of an upload key before the file name holds no dot and no `%`. */
  lemma UploadHeadClean(uuid: string)
    requires UuidShaped(uuid)
    ensures var head := UploadPrefix + uuid + "-";
            forall i :: 0 <= i < |head| ==> head[i] != '.' && head[i] != '%'
  {
    var head := UploadPrefix + uuid + "-";
    forall i | 0 <= i < |head| ensures head[i] != '.' && head[i] != '%' {
      if i < |UploadPrefix| {
        assert head[i] == UploadPrefix[i];
      } else if i < |UploadPrefix| + |uuid| {
        assert head[i] == uuid[i - |UploadPrefix|];
      }
    }
  }

  /** Prefixing a dot-free, `%`-free head keeps a name free of the separator and of `%`. */
  lemma CleanHeadKeepsKeyClean(head: string, name: string)
    requires forall i :: 0 <= i < |head| ==> head[i] != '.' && head[i] != '%'
    requires !Contains(name, KeySeparator) && '%' !in name
    ensures !Contains(head + name, KeySeparator) && '%' !in head + name
  {
    var key := head + name;
    forall i: nat ensures !OccursAt(key, KeySeparator, i) {
      if i < |head| {
        assert key[i] == head[i];
        MismatchAt(key, KeySeparator, i, 0);
      } else {
        OccursAfterPrefix(head, name, KeySeparator, i);
      }
    }
    forall i | 0 <= i < |key| ensures key[i] != '%' {
      if i >= |head| {
        assert key[i] == name[i - |head|];
      }
    }
  }

  /** An uploaded file's key comes back from its public URL whenever the file
      name holds neither the separator nor a `%`. */
  lemma UploadKeyRoundTrip(bucket: string, uuid: string, name: string)
    requires SlashFree(bucket)
    requires UuidShaped(uuid)
    requires !Contains(name, KeySeparator)
    requires '%' !in name
    ensures DeletionKey(PublicUrl(bucket, UploadKey(uuid, name))) == Recovered(UploadKey(uuid, name))
  {
    var head := UploadPrefix + uuid + "-";
    assert UploadKey(uuid, name) == head + name;
    UploadHeadClean(uuid);
    CleanHeadKeepsKeyClean(head, name);
    KeyRoundTrip(bucket, head + name);
  }

  /** A report's key comes back from its public URL whenever the asset id
      holds neither a dot nor a `%` (a numeric id, for one). */
  lemma ReportKeyRoundTrip(bucket: string, id: string)
    requires SlashFree(bucket)
    requires '.' !in id && '%' !in id
    ensures DeletionKey(PublicUrl(bucket, ReportKey(id))) == Recovered(ReportKey(id))
  {
    var key := ReportKey(id);
    var offset := |ReportPrefix|;
    assert key == ReportPrefix + id + ReportSuffix;
    forall i: nat ensures !OccursAt(key, KeySeparator, i) {
      if i < offset {
        assert key[i] == ReportPrefix[i];
        MismatchAt(key, KeySeparator, i, 0);
      } else if i < offset + |id| {
        assert key[i] == id[i - offset];
        MismatchAt(key, KeySeparator, i, 0);
      }
    }
    forall i | 0 <= i < |key| ensures key[i] != '%' {
      if i < offset {
        assert key[i] == ReportPrefix[i];
      } else if i < offset + |id| {
        assert key[i] == id[i - offset];
      } else {
        assert key[i] == ReportSuffix[i - offset - |id|];
      }
    }
    KeyRoundTrip(bucket, key);
  }

  /** The default bucket name is a valid one. */
  lemma DefaultBucketSlashFree()
    ensures SlashFree(DefaultBucket)
  {
  }
}

=== FILE: wrappers.dfy ===
/** Option for the values the handler either has or does not have: a fetched
    buffer, an encoded QR image, the second half of a split string. */
module Wrappers {

  datatype Option<+T> = None | Some(value: T) {

    /** The wrapped value, or `default` when there is none. */
    function GetOr(default: T): T {
      match this
      case Some(v) => v
      case None => default
    }
  }

  /** Raw bytes of a fetched image or an encoded QR bitmap; the model never
      looks inside them. */
  type Bytes = seq<bv8>
}
